=== FILE: README.md ===
# Genie room client: answer selection and normalisation

This project models the client-side logic of `genie_room.py`, a Python client
for a Databricks Genie space. A question is submitted to the Genie service,
the client polls the submitted message until it reaches a terminal status,
lists the conversation, picks the answer message, and normalises it into one
text or table result plus suggested follow-up questions. Around that core sit
a few small pure helpers: the feedback rating, the classification of error
texts, sample-question extraction, the space title and description
fallbacks, and the bot-message-id scan.

Everything is pure functions over a JSON value datatype (`JsonValues.Json`).
Python truthiness is the explicit predicate `JsonValues.Truthy`. A dict is an
association list in which the first occurrence of a key wins. Python's `None`
and JSON `null` are the same value, `JNull`. Where Python would raise on an
unexpected shape (an `AttributeError` from `.get` on a list, a `TypeError`
from `len(None)`, a `KeyError`), the model returns that exception as a
`Fault`. Its text is CPython's, because the top-level handlers show `str(e)`
to the user.

Modules, following the structure of `genie_room.py`:

- `Wrappers`: `Option` and `Result`.
- `Decimal`: `str(n)` for a non-negative integer, and its inverse.
- `JsonValues`: the JSON datatype, the faults, and the Python operations the
  client applies (`get`, `in`, `[]`, `len`, iteration).
- `Poller`: `wait_for_message_completion`. The wall clock and `get_message`
  are replaced by a sequence of observations `Tick(elapsed, reply)`.
- `Resolver`: the answer-selection loop shared by `start_new_conversation`
  and `continue_conversation`, and the bot-id scan of `genie_query`.
- `Normalizer`: `process_genie_response` and the shape extraction of
  `get_query_result`. The query-result endpoint is a function parameter.
- `Space`: the parsing halves of `get_sample_questions` and
  `get_space_info`. `json.loads` is a parameter returning `None` on a
  decoding error.
- `Conversation`: the three flows (`start_new_conversation`,
  `continue_conversation`, `genie_query`), which turn every exception into a
  user-facing text. Also the feedback rating and `send_feedback`.

Behaviours of the code a reader might not expect, all of which the model
keeps:

- **Answer selection order.** The successor of the submitted message is used
  when it is truthy. Otherwise the last message of a non-empty list is used.
  The polled message is used only when the list is empty. The successor test
  is Python truthiness, so an empty-dict successor falls through to the last
  message, and that can be the user's own message.
- **No text priority.** The content pass stops at the first attachment that
  has `text.content` or that has a `query` whose rows are truthy. A query
  attachment placed before a text attachment therefore wins.
- **Null text content.** A text attachment whose `content` is `null` stops the
  pass. Because the client then tests `result is not None`, the message's own
  `content` is used instead.
- **Placeholder.** The placeholder "No response available" comes with an
  empty suggestion list, even when suggestions were collected.
- **Column names before the data test.** Column names are computed before the
  rows are examined. A malformed schema therefore raises even when there are no
  rows.
- **Polling.** The poller fetches immediately. It ignores the submission
  reply's own status.
- **Result fetch id.** The query-result fetch uses the submitted (USER)
  message id, not the id of the answer message.

## Model

| member | source | states |
|---|---|---|
| Decimal.NatToString | genie_room.py:261 | the rendering of the timeout in the poller's message is a non-empty digit string with no leading zero |
| Poller.Step | genie_room.py:252-259 | one fetch asks to poll again exactly when it returns a dict whose status is missing or not COMPLETED, ERROR or FAILED; a terminal message is returned as data and an exception propagates |
| Poller.PollFrom | genie_room.py:250-261 | every fetch happens before the deadline, every fetch but the last asked to poll again, and the run ends either with a timeout on a failed deadline check or with what the last fetch decided |
| Poller.Poll | genie_room.py:233-261 | a returned message is the reply of the last fetch and is a dict with a terminal status |
| Poller.PollStopsAtFirstDecision | genie_room.py:250-256 | with n non-terminal fetches before the deadline followed by a deciding one, the poller makes exactly n+1 fetches and ends as that fetch decided, returning ERROR and FAILED messages rather than raising |
| Poller.PollTimesOut | genie_room.py:250-261 | once the deadline check fails after n non-terminal fetches, the poller raises the timeout and makes no further fetch |
| Resolver.MessageList | genie_room.py:300-301 | a reply without `messages` gives the empty list, a list is taken as is, and a reply that is not a dict raises |
| Resolver.ScanFor | genie_room.py:306-316 | the scan stops at the first message carrying the id, fails only if it meets a non-dict before stopping, and reports no match only when every message is a dict with another id |
| Resolver.ResolveAnswer | genie_room.py:299-324 | the chosen answer is a dict from the list when the list is non-empty and the polled message when it is empty; failure means some message is not a dict |
| Resolver.ResolveAnswerSpec | genie_room.py:299-324 | for a list of dicts: the truthy successor of the first match is the answer; a last-position match, a falsy successor or no match gives the last message; an empty list gives the polled message |
| Resolver.LastNotFromUser | genie_room.py:681-684 | the `message_id` of the last message whose role is not USER (None if it has none), or None when all are USER messages |
| Resolver.BotMessageId | genie_room.py:678-684 | a falsy message list gives None, and a truthy value that cannot be reversed raises |
| Resolver.BotMessageIdSpec | genie_room.py:678-684 | for a list of dicts the scan never fails, returns the `message_id` of the last non-USER message; the result is None when every message is a USER message or the last non-USER message has no `message_id` |
| Normalizer.ExtractQueryResult | genie_room.py:146-154 | a body without `statement_response` gives empty rows and an empty schema; success implies the body is a dict |
| Normalizer.ExtractQueryResponse | genie_room.py:146-154 | extraction recovers the rows and schema of a well-formed query-result body |
| Normalizer.NamesOf | genie_room.py:475 | one name per column in schema order, each the column's `name` or None; fails exactly when some column is not a dict |
| Normalizer.ColumnNames | genie_room.py:474-475 | a schema without `columns` gives no names, and a column list gives its names in order |
| Normalizer.SynthColumns | genie_room.py:481 | k labels, the i-th being `column_i` |
| Normalizer.SynthColumnsDistinct | genie_room.py:480-481 | the synthesised labels are pairwise distinct |
| Normalizer.BuildTable | genie_room.py:478-483 | schema names are kept when there are any; otherwise the columns are `column_0` to `column_{k-1}` with k the width of the first row; the rows are passed through unchanged |
| Normalizer.CollectSuggestions | genie_room.py:433-454 | the first pass succeeds exactly when every attachment is a dict whose offered questions, if any, have a length |
| Normalizer.CollectSuggestionsLast | genie_room.py:446-454 | the suggestions are the `questions` of the last attachment offering them, and the initial empty list when none does |
| Normalizer.ContentStep | genie_room.py:459-484 | an attachment with `text.content` yields that content; one without text content and without a query moves on (a `text` lacking `content` included); a `text` value that `in` cannot search raises that error, and so does a `text` that contains "content" but cannot be indexed by it; a table comes only from a query with truthy rows and carries `query.query` (default "") |
| Normalizer.ContentPass | genie_room.py:459-484 | whatever the second pass finds or raises is what some attachment's turn found or raised |
| Normalizer.ContentPassFirst | genie_room.py:459-484 | the second pass is decided by the first attachment whose turn breaks the loop or raises |
| Normalizer.ContentPassNothing | genie_room.py:459-484 | when every attachment's turn moves on, the second pass finds nothing |
| Normalizer.ContentPassSameTurns | genie_room.py:459-484 | the second pass sees the attachments only through its per-attachment turns |
| Normalizer.Conclude | genie_room.py:486-497 | query text is non-null only with a table; a table found is returned with its query text; suggestions are kept except with the placeholder, which appears only when the message has no `content`; a non-null text found is the answer; with nothing found (or a null text) the message's `content` is the answer, or else the placeholder with no suggestions |
| Normalizer.ProcessResponse | genie_room.py:412-497 | normalisation succeeds only for a message dict |
| Normalizer.ProcessTextFirst | genie_room.py:459-466 | a first attachment with non-null text yields that text, no query text and the collected suggestions |
| Normalizer.ProcessFirstWinner | genie_room.py:459-489 | the first attachment that stops the second pass, at any position and text or table, decides the answer together with the first pass's suggestions |
| Normalizer.ProcessFallback | genie_room.py:486-497 | when no attachment wins, the message's `content` is returned with the suggestions if the key exists, and otherwise the placeholder with no suggestions |
| Normalizer.QueryWithoutSchemaNames | genie_room.py:463-483 | for a query attachment without text content (a `text` without `content` included), a query result with rows and no schema columns yields a table with positional column names and the attachment's query text |
| Normalizer.QueryWithSchemaNames | genie_room.py:463-484 | a query attachment without text content, whose result has truthy rows and a schema naming its columns, stops the pass with a table under those names and the attachment's query text |
| Normalizer.QueryWithoutRowsPassedOver | genie_room.py:463-478 | for a query attachment without text content, a query result without rows is passed over whenever its schema's column names can be read |
| Normalizer.QueryFetchFails | genie_room.py:468-471 | for a query attachment without text content, a failing query-result fetch raises its error unchanged |
| Normalizer.QueryMalformedSchemaRaises | genie_room.py:473-478 | the column names are read before the rows are tested, so a schema whose columns cannot be read raises even when the result has no rows |
| Normalizer.ProcessUsesGivenMessageId | genie_room.py:471 | query results are fetched only under the message id passed in |
| Normalizer.ContentStepSameFetch | genie_room.py:460-471 | one turn of the second pass depends on the endpoint only through calls with the given message id |
| Space.SampleQuestion | genie_room.py:532-539 | an item contributes only if it is a dict with `question`; a non-empty list contributes its first element and a string contributes itself; an item contributes exactly when it is a dict whose `question` is a string or a non-empty list, so every other item is skipped |
| Space.SampleQuestions | genie_room.py:531-539 | at most one question per item |
| Space.SampleQuestionsAppend | genie_room.py:531-539 | extraction keeps input order and treats items independently |
| Space.SampleQuestionsSingle | genie_room.py:532-539 | a single item contributes exactly what its extraction gives |
| Space.SampleQuestionsOf | genie_room.py:517-539 | a missing or falsy `serialized_space` gives no questions; an exception happens exactly when the details are not a dict or a truthy `serialized_space` fails to decode to a config dict with a dict `config` and iterable `sample_questions`; otherwise the result is the extraction over those items |
| Space.GetSampleQuestions | genie_room.py:506-549 | a failed details call, a non-dict reply, a falsy `serialized_space`, a decoding error, a non-string `serialized_space` or a config of the wrong shape gives []; otherwise the result is the extraction over the configured items |
| Space.GetSampleQuestionsConfigured | genie_room.py:517-542 | with a well-formed configuration the result is the extraction over the configured items |
| Space.SpaceTitle | genie_room.py:575-580 | `title` when truthy, else `display_name` when truthy, else `name` |
| Space.GetSpaceInfo | genie_room.py:561-599 | a failed call or a non-dict reply gives (None, None); a truthy description or a falsy `serialized_space` keeps the top-level title and description; otherwise a decoding error keeps the falsy description, a decoded config dict supplies `config.description`, and any other shape gives (None, None) |
| Conversation.AskNew | genie_room.py:283-329 | a failed submission fails with the same fault and a non-dict reply raises; otherwise the result is the reply's conversation id with the answer to the reply's message id, or that answer's fault |
| Conversation.StartNewConversation | genie_room.py:283-332 | any fault becomes the retry text with no conversation id, query text or suggestions; otherwise the normalised answer is passed through |
| Conversation.RetryText | genie_room.py:332 | the retry text is the fixed prefix, the fault's own text, then the fixed suffix |
| Conversation.RetryTextInjective | genie_room.py:332 | two faults with the same retry text have the same text, so the user sees the fault's message intact |
| Conversation.Answer | genie_room.py:290-327 | a poll failure or a listing failure is passed on unchanged; a success means the poll completed, the listing was a dict, and the result is the normalisation of some message |
| Conversation.AnswerFollowsSubmittedMessage | genie_room.py:290-327 | with a completed poll and a list of message dicts in which the submitted id first appears at i with a truthy successor, the flow normalises message i+1, fetching under the submitted id |
| Conversation.AnswerAfterUnansweredMessage | genie_room.py:306-327 | when the submitted id first appears last, or before a falsy message, the flow normalises the last listed message |
| Conversation.AnswerWithoutSubmittedMessage | genie_room.py:306-327 | when no listed message carries the submitted id, the flow normalises the last message of a non-empty listing |
| Conversation.AnswerFromPolledMessage | genie_room.py:294-327 | when the listing has no `messages` or an empty list, the flow normalises the message the poll returned |
| Conversation.BotIdFrom | genie_room.py:674-684 | a failed listing passes its fault on, a non-dict listing raises, and a dict listing gives the bot-id scan of its `messages` (default []) |
| Conversation.ContinueErrorText | genie_room.py:404-410 | the high-demand text exactly when the error mentions 429 or Too Many Requests; the expired text exactly when it does not but mentions Conversation not found; otherwise the error prefixed |
| Conversation.AskFollowUp | genie_room.py:355-400 | a failed submission fails with the same fault and a non-dict reply raises; otherwise the result is the answer to the reply's message id in the given conversation |
| Conversation.ContinueConversation | genie_room.py:355-410 | a fault becomes its classified text with no query text or suggestions; otherwise the normalised answer is passed through |
| Conversation.GenieQuery | genie_room.py:664-690 | a failing second listing gives only the retry text; otherwise the new conversation's answer, query text, suggestions and id are returned unchanged with the last non-USER message id |
| Conversation.StartTimesOut | genie_room.py:283-332 | when the poller times out, the user sees the retry text of the default-deadline timeout, with no conversation id, query text or suggestions |
| Conversation.DefaultTimeoutText | genie_room.py:261 | with the default deadline the timeout's text reads "Message processing timed out after 300 seconds" |
| Conversation.AnswerUsesSubmittedId | genie_room.py:327 | the flows fetch query results only under the submitted message id |
| Conversation.FollowUpOnExpiredConversation | genie_room.py:406-407 | a "Conversation not found" failure without a rate-limit marker tells the user the conversation expired |
| Conversation.Rating | genie_room.py:214 | "POSITIVE" exactly when the input is "positive", and "NEGATIVE" for every other input |
| Conversation.SendFeedback | genie_room.py:601-647 | true exactly when posting the rating succeeds |

## Left out

- HTTP requests, URL construction, headers and token refresh. Each endpoint is a parameter or a recorded reply (`Conversation.Service`, `Normalizer.Fetcher`, `Conversation.Poster`).
- The `backoff` retry decorators. The model sees only the final reply or exception after the retries.
- `time.time` and `time.sleep`. They are replaced by the tick sequence. The precondition `Poller.DeadlinePasses` stands for the clock eventually passing the deadline. The two-second sleep guarantees that only when every `get_message` call returns. The HTTP calls carry no timeout, so a fetch that never returns would leave the poller hanging. That hang is not modelled.
- `json.loads`. It is the parameter `Space.Parser`.
- `pandas.DataFrame` construction. A table is its column labels and rows. No error the DataFrame constructor can raise is modelled: not the width mismatch between labels and rows, nor the "DataFrame constructor not properly called!" error for truthy rows that are not a list (a number or a string), for which `Normalizer.BuildTable` returns a table.
- Logging and environment loading. Log statements that could raise are kept: `.get` and `.keys()` on messages and attachments, and `len` of the attachments and of offered questions.
- `execute_query`. No flow calls it.
- The question payload of the submission endpoints. Only their reply matters here.
- Python's cross-type equality (`True == 1`, `1 == 1.0`) in id comparisons. `Json` equality is structural.
- Dicts with duplicate keys. Python's decoder keeps the last of repeated keys, the model's association list the first; the two agree whenever keys are unique.
- `send_message_feedback`'s HTTP error logging. It changes nothing observable beyond the `False` result of `send_feedback`.
- Poller.Poll: the attempt counter and the poll interval are not modelled, because neither affects the result.
- Normalizer.ProcessResponse: its own contract states only that the message must be a dict. For a dict message whose attachments all get through the first pass, `Normalizer.ProcessFirstWinner` and `Normalizer.ProcessFallback` state the result, with `Normalizer.Conclude` giving the answer for each case. The error paths (a non-list `attachments`, an attachment that fails the first pass, a raising second-pass turn) are stated per step and not for the whole call: by `Normalizer.CollectSuggestions` for the first pass, by `Normalizer.ContentStep`, `Normalizer.QueryFetchFails` and `Normalizer.QueryMalformedSchemaRaises` for one turn, and by `Normalizer.ContentPass` for the second pass. A turn that raises in building the table is stated only through `Normalizer.BuildTable`.

=== FILE: conversation.dfy ===
/** The conversation flows of the module: `start_new_conversation`,
    `continue_conversation` and `genie_query` compose submission, polling,
    answer resolution and normalisation, and turn any exception into a
    user-facing text. Also the feedback rating of `send_message_feedback`
    and `send_feedback`. The service is a record of what each endpoint
    returns or raises during the exchange being modelled. */
module Conversation {
  import opened Wrappers
  import opened Decimal
  import opened JsonValues
  import opened Poller
  import opened Resolver
  import opened Normalizer

  /** The endpoints one ask touches: the submission reply (start-conversation
      or send-message), the observations of the polling loop, the message
      list, and the query-result endpoint. */
  datatype Service = Service(
    submitted: Result<Json, Fault>,
    ticks: seq<Tick>,
    listing: Result<Json, Fault>,
    fetch: Fetcher)

  /** The polling observations end past the default deadline. */
  predicate Observable(svc: Service) {
    DeadlinePasses(svc.ticks, DefaultTimeout)
  }

  /** `(conversation_id, result, query_text, suggested_questions)`. */
  datatype StartReply = StartReply(conversationId: Json, answer: Answer, queryText: Json, suggestions: Json)

  /** `(result, query_text, suggested_questions)`. */
  datatype Reply = Reply(answer: Answer, queryText: Json, suggestions: Json)

  /** `(result, query_text, suggested_questions, conversation_id, message_id)`. */
  datatype QueryReply = QueryReply(answer: Answer, queryText: Json, suggestions: Json, conversationId: Json, messageId: Json)

  /** The two specific apologies share their opening words. */
  const SpecificOpening: string := "Sorry, the "
  const HighDemand: string := SpecificOpening + "system is currently experiencing high demand. Please try again in a few moments."
  const Expired: string := SpecificOpening + "previous conversation has expired. Please try your query again to start a new conversation."
  const ErrorPrefix: string := "Sorry, an error occurred: "
  const RetrySuffix: string := ". Please try again."

  /** The text `start_new_conversation` and `genie_query` return for an
      exception: the fault's own text between a fixed prefix and suffix. */
  function RetryText(f: Fault): (r: string)
    ensures |r| == |ErrorPrefix| + |FaultText(f)| + |RetrySuffix|
    ensures r[..|ErrorPrefix|] == ErrorPrefix
    ensures r[|ErrorPrefix|..|ErrorPrefix| + |FaultText(f)|] == FaultText(f)
    ensures r[|ErrorPrefix| + |FaultText(f)|..] == RetrySuffix
  {
    ErrorPrefix + FaultText(f) + RetrySuffix
  }

  /** The retry text loses nothing: two faults with the same retry text
      have the same text. */
  lemma {:induction false} RetryTextInjective(f: Fault, g: Fault)
    ensures RetryText(f) == RetryText(g) ==> FaultText(f) == FaultText(g)
  {
    if RetryText(f) == RetryText(g) {
      assert |FaultText(f)| == |FaultText(g)|;
      assert FaultText(f) == RetryText(f)[|ErrorPrefix|..|ErrorPrefix| + |FaultText(f)|];
    }
  }

  /** Wait for completion, list the conversation, resolve the answer to the
      submitted message `messageId` and normalise it. The query results are
      fetched with `messageId`, not with the answer's id. */
  function Answer(svc: Service, conversationId: Json, messageId: Json): (r: Result<Normalized, Fault>)
    requires Observable(svc)
    ensures Poll(svc.ticks, DefaultTimeout).outcome.Failure? ==> r == Failure(Poll(svc.ticks, DefaultTimeout).outcome.error)
    ensures Poll(svc.ticks, DefaultTimeout).outcome.Success? && svc.listing.Failure? ==> r == Failure(svc.listing.error)
    ensures r.Success? ==>
              && Poll(svc.ticks, DefaultTimeout).outcome.Success?
              && svc.listing.Success? && svc.listing.value.JObj?
              && exists answer :: r == ProcessResponse(svc.fetch, conversationId, messageId, answer)
  {
    var complete :- Poll(svc.ticks, DefaultTimeout).outcome;
    var listing :- svc.listing;
    var msgs :- MessageList(listing);
    var answer :- ResolveAnswer(messageId, complete, msgs);
    ProcessResponse(svc.fetch, conversationId, messageId, answer)
  }

  /** The `try` body of `start_new_conversation`: the new conversation's id
      and the normalised answer. */
  function AskNew(svc: Service): (r: Result<(Json, Normalized), Fault>)
    requires Observable(svc)
    ensures svc.submitted.Failure? ==> r == Failure(svc.submitted.error)
    ensures r.Success? ==> svc.submitted.Success? && r.value.0 == Field(svc.submitted.value, "conversation_id", JNull)
    ensures svc.submitted.Success? && !svc.submitted.value.JObj? ==> r.Failure?
    ensures svc.submitted.Success? && svc.submitted.value.JObj? ==>
              var conversationId := Field(svc.submitted.value, "conversation_id", JNull);
              var answer := Answer(svc, conversationId, Field(svc.submitted.value, "message_id", JNull));
              && (answer.Success? ==> r == Success((conversationId, answer.value)))
              && (answer.Failure? ==> r == Failure(answer.error))
  {
    var response :- svc.submitted;
    var reply :- AsDict(response, "get");
    var conversationId := Field(reply, "conversation_id", JNull);
    var normalized :- Answer(svc, conversationId, Field(reply, "message_id", JNull));
    Success((conversationId, normalized))
  }

  /** `start_new_conversation(question)`: never raises; any exception becomes
      the retry text with no conversation id, query text or suggestions. */
  function StartNewConversation(svc: Service): (r: StartReply)
    requires Observable(svc)
    ensures AskNew(svc).Failure? ==>
              r == StartReply(JNull, TextAnswer(JStr(RetryText(AskNew(svc).error))), JNull, JArr([]))
    ensures AskNew(svc).Success? ==>
              && r.conversationId == AskNew(svc).value.0
              && r.answer == AskNew(svc).value.1.answer
              && r.queryText == AskNew(svc).value.1.queryText
              && r.suggestions == AskNew(svc).value.1.suggestions
  {
    match AskNew(svc)
    case Success((conversationId, n)) => StartReply(conversationId, n.answer, n.queryText, n.suggestions)
    case Failure(f) => StartReply(JNull, TextAnswer(JStr(RetryText(f))), JNull, JArr([]))
  }

  /** The exception handler of `continue_conversation`: rate limiting is
      recognised first (by "429" or "Too Many Requests" in the text), then an
      expired conversation, and anything else is reported verbatim. */
  function ContinueErrorText(e: string): (r: string)
    ensures r == HighDemand <==> IsSubstring("429", e) || IsSubstring("Too Many Requests", e)
    ensures r == Expired <==> !IsSubstring("429", e) && !IsSubstring("Too Many Requests", e) && IsSubstring("Conversation not found", e)
    ensures r != HighDemand && r != Expired ==> r == ErrorPrefix + e
  {
    var generic := ErrorPrefix + e;
    assert generic[7] == 'a' && HighDemand[7] == 't' && Expired[7] == 't';
    assert |HighDemand| != |Expired|;
    if IsSubstring("429", e) || IsSubstring("Too Many Requests", e) then HighDemand
    else if IsSubstring("Conversation not found", e) then Expired
    else generic
  }

  /** The `try` body of `continue_conversation(conversation_id, question)`. */
  function AskFollowUp(conversationId: string, svc: Service): (r: Result<Normalized, Fault>)
    requires Observable(svc)
    ensures svc.submitted.Failure? ==> r == Failure(svc.submitted.error)
    ensures svc.submitted.Success? && !svc.submitted.value.JObj? ==> r.Failure?
    ensures svc.submitted.Success? && svc.submitted.value.JObj? ==>
              r == Answer(svc, JStr(conversationId), Field(svc.submitted.value, "message_id", JNull))
  {
    var response :- svc.submitted;
    var reply :- AsDict(response, "get");
    Answer(svc, JStr(conversationId), Field(reply, "message_id", JNull))
  }

  /** `continue_conversation(conversation_id, question)`: never raises; an
      exception becomes its classified text with no query text or
      suggestions. */
  function ContinueConversation(conversationId: string, svc: Service): (r: Reply)
    requires Observable(svc)
    ensures AskFollowUp(conversationId, svc).Failure? ==>
              r == Reply(TextAnswer(JStr(ContinueErrorText(FaultText(AskFollowUp(conversationId, svc).error)))), JNull, JArr([]))
    ensures AskFollowUp(conversationId, svc).Success? ==>
              var n := AskFollowUp(conversationId, svc).value;
              r == Reply(n.answer, n.queryText, n.suggestions)
  {
    match AskFollowUp(conversationId, svc)
    case Success(n) => Reply(n.answer, n.queryText, n.suggestions)
    case Failure(f) => Reply(TextAnswer(JStr(ContinueErrorText(FaultText(f)))), JNull, JArr([]))
  }

  /** The second listing in `genie_query`, reduced to the bot message id. */
  function BotIdFrom(listing: Result<Json, Fault>): (r: Result<Json, Fault>)
    ensures listing.Failure? ==> r == Failure(listing.error)
    ensures listing.Success? && !listing.value.JObj? ==> r == Failure(Py(NoAttribute(TypeName(listing.value), "get")))
    ensures listing.Success? && listing.value.JObj? ==> r == BotMessageId(Field(listing.value, "messages", JArr([])))
  {
    var response :- listing;
    var messages :- DictGet(response, "messages", JArr([]));
    BotMessageId(messages)
  }

  /** `genie_query(question)`: the new conversation's answer, plus the id of
      the last non-USER message of a second listing of the conversation;
      if that listing fails, only the retry text survives. */
  function GenieQuery(svc: Service, botListing: Result<Json, Fault>): (r: QueryReply)
    requires Observable(svc)
    ensures BotIdFrom(botListing).Failure? ==>
              r == QueryReply(TextAnswer(JStr(RetryText(BotIdFrom(botListing).error))), JNull, JArr([]), JNull, JNull)
    ensures BotIdFrom(botListing).Success? ==>
              && r.messageId == BotIdFrom(botListing).value
              && r.conversationId == StartNewConversation(svc).conversationId
              && r.answer == StartNewConversation(svc).answer
              && r.queryText == StartNewConversation(svc).queryText
              && r.suggestions == StartNewConversation(svc).suggestions
  {
    var start := StartNewConversation(svc);
    match BotIdFrom(botListing)
    case Success(botId) => QueryReply(start.answer, start.queryText, start.suggestions, start.conversationId, botId)
    case Failure(f) => QueryReply(TextAnswer(JStr(RetryText(f))), JNull, JArr([]), JNull, JNull)
  }

  // ---------------------------------------------------------------- flow properties

  /** When the poller times out, `start_new_conversation` answers with the
      timeout's text and never reaches the listing or the query results. */
  lemma StartTimesOut(svc: Service, n: nat)
    requires Observable(svc)
    requires svc.submitted.Success? && svc.submitted.value.JObj?
    requires n < |svc.ticks|
    requires forall j :: 0 <= j < n ==> svc.ticks[j].elapsed < DefaultTimeout as real && Step(svc.ticks[j].reply).None?
    requires svc.ticks[n].elapsed >= DefaultTimeout as real
    ensures StartNewConversation(svc) == StartReply(JNull, TextAnswer(JStr(RetryText(Timeout(DefaultTimeout)))), JNull, JArr([]))
  {
    PollTimesOut(svc.ticks, DefaultTimeout, n);
  }

  /** The poller's message for the default deadline, as the user reads it. */
  lemma DefaultTimeoutText()
    ensures FaultText(Timeout(DefaultTimeout)) == "Message processing timed out after " + "300" + " seconds"
  {
    assert NatToString(3) == "3";
    assert NatToString(30) == NatToString(3) + "0";
    assert NatToString(300) == NatToString(30) + "0";
  }

  /** End to end: when the poll completes, the listing holds a list of
      message dicts, and the submitted message first appears at `i` with a
      non-empty successor, the flows normalise that successor, still
      fetching query results under the submitted id. */
  lemma AnswerFollowsSubmittedMessage(svc: Service, conversationId: Json, messageId: Json, msgs: seq<Json>, i: nat)
    requires Observable(svc)
    requires Poll(svc.ticks, DefaultTimeout).outcome.Success?
    requires svc.listing.Success? && svc.listing.value.JObj?
    requires Field(svc.listing.value, "messages", JNull) == JArr(msgs)
    requires AllDicts(msgs)
    requires FirstMatchAt(msgs, messageId, i) && i + 1 < |msgs| && Truthy(msgs[i + 1])
    ensures Answer(svc, conversationId, messageId) == ProcessResponse(svc.fetch, conversationId, messageId, msgs[i + 1])
  {
    ResolveAnswerSpec(messageId, Poll(svc.ticks, DefaultTimeout).outcome.value, msgs);
    assert MessageList(svc.listing.value) == Success(msgs);
  }

  /** When the submitted message is the last one listed, or the message after
      it is falsy, the flows answer with the last message of the listing. */
  lemma AnswerAfterUnansweredMessage(svc: Service, conversationId: Json, messageId: Json, msgs: seq<Json>, i: nat)
    requires Observable(svc)
    requires Poll(svc.ticks, DefaultTimeout).outcome.Success?
    requires svc.listing.Success? && svc.listing.value.JObj?
    requires Field(svc.listing.value, "messages", JNull) == JArr(msgs)
    requires AllDicts(msgs)
    requires FirstMatchAt(msgs, messageId, i) && (i + 1 == |msgs| || !Truthy(msgs[i + 1]))
    ensures Answer(svc, conversationId, messageId) == ProcessResponse(svc.fetch, conversationId, messageId, msgs[|msgs| - 1])
  {
    ResolveAnswerSpec(messageId, Poll(svc.ticks, DefaultTimeout).outcome.value, msgs);
    assert MessageList(svc.listing.value) == Success(msgs);
  }

  /** When no listed message carries the submitted id, the flows answer with
      the last message of a non-empty listing. */
  lemma AnswerWithoutSubmittedMessage(svc: Service, conversationId: Json, messageId: Json, msgs: seq<Json>)
    requires Observable(svc)
    requires Poll(svc.ticks, DefaultTimeout).outcome.Success?
    requires svc.listing.Success? && svc.listing.value.JObj?
    requires Field(svc.listing.value, "messages", JNull) == JArr(msgs)
    requires AllDicts(msgs) && |msgs| > 0
    requires forall j :: 0 <= j < |msgs| ==> MessageId(msgs[j]) != messageId
    ensures Answer(svc, conversationId, messageId) == ProcessResponse(svc.fetch, conversationId, messageId, msgs[|msgs| - 1])
  {
    ResolveAnswerSpec(messageId, Poll(svc.ticks, DefaultTimeout).outcome.value, msgs);
    assert MessageList(svc.listing.value) == Success(msgs);
  }

  /** When the listing has no `messages` key or an empty list under it, the
      flows answer with the message the poll returned. */
  lemma AnswerFromPolledMessage(svc: Service, conversationId: Json, messageId: Json)
    requires Observable(svc)
    requires Poll(svc.ticks, DefaultTimeout).outcome.Success?
    requires svc.listing.Success? && svc.listing.value.JObj?
    requires !HasKey(svc.listing.value, "messages") || Field(svc.listing.value, "messages", JNull) == JArr([])
    ensures Answer(svc, conversationId, messageId)
            == ProcessResponse(svc.fetch, conversationId, messageId, Poll(svc.ticks, DefaultTimeout).outcome.value)
  {
    ResolveAnswerSpec(messageId, Poll(svc.ticks, DefaultTimeout).outcome.value, []);
    assert MessageList(svc.listing.value) == Success([]);
  }

  /** The flows fetch query results only under the submitted message's id:
      a query-result endpoint that agrees with the real one on those calls
      leaves the answer unchanged. */
  lemma AnswerUsesSubmittedId(svc: Service, other: Fetcher, conversationId: Json, messageId: Json)
    requires Observable(svc)
    requires forall attachmentId :: svc.fetch(conversationId, messageId, attachmentId) == other(conversationId, messageId, attachmentId)
    ensures Answer(svc, conversationId, messageId) == Answer(svc.(fetch := other), conversationId, messageId)
  {
    var complete := Poll(svc.ticks, DefaultTimeout).outcome;
    if complete.Success? && svc.listing.Success? {
      var msgs := MessageList(svc.listing.value);
      if msgs.Success? {
        var answer := ResolveAnswer(messageId, complete.value, msgs.value);
        if answer.Success? {
          ProcessUsesGivenMessageId(svc.fetch, other, conversationId, messageId, answer.value);
        }
      }
    }
  }

  /** A follow-up whose submission fails with a "Conversation not found"
      text (and no rate-limit marker) tells the user the conversation has
      expired. */
  lemma FollowUpOnExpiredConversation(conversationId: string, svc: Service, text: string)
    requires Observable(svc)
    requires svc.submitted == Failure(Remote(text))
    requires IsSubstring("Conversation not found", text)
    requires !IsSubstring("429", text) && !IsSubstring("Too Many Requests", text)
    ensures ContinueConversation(conversationId, svc) == Reply(TextAnswer(JStr(Expired)), JNull, JArr([]))
  {
  }

  // ---------------------------------------------------------------- feedback

  /** The rating token `send_message_feedback` posts. */
  function Rating(feedbackType: string): (r: string)
    ensures r == "POSITIVE" <==> feedbackType == "positive"
    ensures r == "NEGATIVE" <==> feedbackType != "positive"
  {
    if feedbackType == "positive" then "POSITIVE" else "NEGATIVE"
  }

  /** The feedback endpoint, by (conversation id, message id, payload): the
      decoded reply, or what the HTTP layer or the reply's decoding raised. */
  type Poster = (string, string, Json) -> Result<Json, Fault>

  /** `{"rating": ...}`. */
  function FeedbackPayload(feedbackType: string): Json {
    JObj([("rating", JStr(Rating(feedbackType)))])
  }

  /** `send_feedback(conversation_id, message_id, feedback_type)`: `True`
      exactly when posting the rating succeeds; every failure is `False`. */
  function SendFeedback(conversationId: string, messageId: string, feedbackType: string, post: Poster): (ok: bool)
    ensures ok <==> post(conversationId, messageId, FeedbackPayload(feedbackType)).Success?
  {
    match post(conversationId, messageId, FeedbackPayload(feedbackType))
    case Success(_) => true
    case Failure(_) => false
  }
}

=== FILE: decimal.dfy ===
/** Decimal rendering of natural numbers, as Python's `str(n)` and f-string
    interpolation produce it for a non-negative `int`. */
module Decimal {

  predicate IsDigit(c: char) {
    '0' <= c <= '9'
  }

  predicate AllDigits(s: string) {
    forall i :: 0 <= i < |s| ==> IsDigit(s[i])
  }

  function DigitChar(d: nat): (c: char)
    requires d < 10
    ensures IsDigit(c)
  {
    ('0' as int + d) as char
  }

  function DigitValue(c: char): nat
    requires IsDigit(c)
  {
    c as int - '0' as int
  }

  /** `str(n)`: the shortest decimal numeral of `n`, most significant digit first. */
  function NatToString(n: nat): (s: string)
    ensures |s| > 0
    ensures AllDigits(s)
    ensures |s| > 1 ==> s[0] != '0'
  {
    if n < 10 then [DigitChar(n)]
    else NatToString(n / 10) + [DigitChar(n % 10)]
  }

  /** Reads a numeral back, `int(s)` for a string of digits. */
  function ParseDigits(s: string): nat
    requires AllDigits(s)
  {
    if |s| == 0 then 0
    else ParseDigits(s[..|s| - 1]) * 10 + DigitValue(s[|s| - 1])
  }

  /** Rendering a number and reading it back gives the number. */
  lemma {:induction false} ParseNatToString(n: nat)
    ensures ParseDigits(NatToString(n)) == n
  {
    var s := NatToString(n);
    if n < 10 {
      assert s[..|s| - 1] == [];
    } else {
      var prefix := NatToString(n / 10);
      assert s == prefix + [DigitChar(n % 10)];
      assert s[..|s| - 1] == prefix;
      ParseNatToString(n / 10);
    }
  }

  /** Distinct numbers have distinct numerals. */
  lemma NatToStringInjective(a: nat, b: nat)
    ensures NatToString(a) == NatToString(b) ==> a == b
  {
    ParseNatToString(a);
    ParseNatToString(b);
  }
}

=== FILE: normalizer.dfy ===
/** Response normalisation, `process_genie_response`: turn the answer message
    into one text or table result plus the suggested follow-up questions,
    and the shape extraction of `GenieClient.get_query_result`. The
    query-result endpoint is a function parameter. */
module Normalizer {
  import opened Wrappers
  import opened Decimal
  import opened JsonValues

  /** The query-result endpoint, by (conversation id, message id, attachment
      id): the decoded response body, or what the HTTP layer raised. */
  type Fetcher = (Json, Json, Json) -> Result<Json, Fault>

  /** The dict `get_query_result` returns. */
  datatype QueryResult = QueryResult(dataArray: Json, schema: Json)

  /** The DataFrame the client builds: column labels and the `data_array`
      handed to the constructor as it is. */
  datatype Table = Table(columns: seq<Json>, data: Json)

  /** Exactly one of a text (any JSON value the service put there) or a table. */
  datatype Answer = TextAnswer(text: Json) | TableAnswer(table: Table)

  /** `(result, query_text, suggested_questions)`; `JNull` is Python's `None`. */
  datatype Normalized = Normalized(answer: Answer, queryText: Json, suggestions: Json)

  /** What the second pass finds in an attachment and breaks on. */
  datatype Found = FoundText(content: Json) | FoundTable(table: Table, queryText: Json)

  const NoResponse: string := "No response available"

  // ---------------------------------------------------------------- query results

  /** The shape extraction of `get_query_result`: `data_array` from
      `statement_response.result` when both keys are there (else `[]`), and
      `schema` from `statement_response.manifest` (else `{}`). */
  function ExtractQueryResult(body: Json): (r: Result<QueryResult, Fault>)
    ensures body.JObj? && !HasKey(body, "statement_response") ==> r == Success(QueryResult(JArr([]), JObj([])))
    ensures r.Success? ==> body.JObj?
  {
    var hasResponse :- In("statement_response", body);
    var dataArray :-
      if hasResponse then
        var response :- Index(body, "statement_response");
        var hasResult :- In("result", response);
        if hasResult then
          var result :- Index(response, "result");
          DictGet(result, "data_array", JArr([]))
        else Success(JArr([]))
      else Success(JArr([]));
    var response :- DictGet(body, "statement_response", JObj([]));
    var manifest :- DictGet(response, "manifest", JObj([]));
    var schema :- DictGet(manifest, "schema", JObj([]));
    Success(QueryResult(dataArray, schema))
  }

  /** The body the query-result endpoint sends for rows `data` under `schema`. */
  function QueryResponse(data: Json, schema: Json): Json {
    JObj([("statement_response", JObj([
      ("result", JObj([("data_array", data)])),
      ("manifest", JObj([("schema", schema)]))]))])
  }

  /** Extraction recovers the rows and schema of a well-formed response. */
  lemma ExtractQueryResponse(data: Json, schema: Json)
    ensures ExtractQueryResult(QueryResponse(data, schema)) == Success(QueryResult(data, schema))
  {
    var result := JObj([("data_array", data)]);
    var manifest := JObj([("schema", schema)]);
    var response := JObj([("result", result), ("manifest", manifest)]);
    assert Find(response.fields, "result") == Some(result);
    assert Find(response.fields, "manifest") == Some(manifest);
    assert Find(result.fields, "data_array") == Some(data);
    assert Find(manifest.fields, "schema") == Some(schema);
  }

  /** `[col.get('name') for col in schema.get('columns', [])]` over the
      iterated columns `cols`. */
  function NamesOf(cols: seq<Json>): (r: Result<seq<Json>, Fault>)
    ensures r.Success? <==> forall i :: 0 <= i < |cols| ==> cols[i].JObj?
    ensures r.Success? ==> |r.value| == |cols|
    ensures r.Success? ==> forall i :: 0 <= i < |cols| ==> r.value[i] == Field(cols[i], "name", JNull)
  {
    if |cols| == 0 then Success([])
    else
      var name :- DictGet(cols[0], "name", JNull);
      var rest :- NamesOf(cols[1..]);
      Success([name] + rest)
  }

  /** The column names the schema gives, in schema order. */
  function ColumnNames(schema: Json): (r: Result<seq<Json>, Fault>)
    ensures r.Success? ==> schema.JObj? && IsSized(Field(schema, "columns", JArr([])))
    ensures schema.JObj? && !HasKey(schema, "columns") ==> r == Success([])
    ensures schema.JObj? && Field(schema, "columns", JArr([])).JArr? ==> r == NamesOf(Field(schema, "columns", JArr([])).items)
  {
    var columns :- DictGet(schema, "columns", JArr([]));
    var cols :- Iterate(columns);
    NamesOf(cols)
  }

  /** `[f"column_{i}" for i in range(k)]`. */
  function SynthColumns(k: nat): (r: seq<Json>)
    ensures |r| == k
    ensures forall i :: 0 <= i < k ==> r[i] == JStr("column_" + NatToString(i))
  {
    seq(k, i requires 0 <= i < k => JStr("column_" + NatToString(i)))
  }

  /** The synthesised labels are pairwise distinct, so the table never has
      two columns of the same name. */
  lemma SynthColumnsDistinct(k: nat)
    ensures forall i, j :: 0 <= i < j < k ==> SynthColumns(k)[i] != SynthColumns(k)[j]
  {
    forall i, j | 0 <= i < j < k
      ensures SynthColumns(k)[i] != SynthColumns(k)[j]
    {
      var a := "column_" + NatToString(i);
      var b := "column_" + NatToString(j);
      if a == b {
        assert a[7..] == NatToString(i);
        assert b[7..] == NatToString(j);
        NatToStringInjective(i, j);
      }
    }
  }

  /** The table for a truthy `data`: the schema's names, or,
      when it gives none, one positional name per value of the first row. */
  function BuildTable(columns: seq<Json>, data: Json): (r: Result<Table, Fault>)
    ensures |columns| > 0 ==> r == Success(Table(columns, data))
    ensures |columns| == 0 && data.JArr? && |data.items| > 0 && data.items[0].JArr? ==>
              r == Success(Table(SynthColumns(|data.items[0].items|), data))
    ensures |columns| == 0 && Truthy(data) && !IsSized(data) ==> r == Failure(Py(NoLen(TypeName(data))))
    ensures r.Success? ==> r.value.data == data
  {
    if |columns| > 0 then Success(Table(columns, data))
    else
      var n :- Len(data);
      if n > 0 then
        var first :- IndexZero(data);
        var k :- Len(first);
        Success(Table(SynthColumns(k), data))
      else Success(Table(columns, data))
  }

  // ---------------------------------------------------------------- suggestions

  /** The first pass's test: the attachment has `suggested_questions`, and it
      is a dict holding `questions`. */
  predicate OffersQuestions(att: Json) {
    HasKey(att, "suggested_questions") && HasKey(Field(att, "suggested_questions", JNull), "questions")
  }

  /** `attachment["suggested_questions"]["questions"]`. */
  function OfferedQuestions(att: Json): Json {
    Field(Field(att, "suggested_questions", JNull), "questions", JArr([]))
  }

  /** An attachment the first pass gets through: a dict (it calls `.keys()`),
      whose offered questions, if any, have a length (it logs `len(...)`). */
  predicate PassesFirstPass(att: Json) {
    att.JObj? && (OffersQuestions(att) ==> IsSized(OfferedQuestions(att)))
  }

  /** The first pass from attachment `k` on, with `acc` collected so far: each
      qualifying attachment replaces what was collected, so the result is
      the questions of the last one, or `acc` when none qualifies; a
      `suggested_questions` of any other shape is skipped. */
  function CollectSuggestions(atts: seq<Json>, k: nat, acc: Json): (r: Result<Json, Fault>)
    requires k <= |atts|
    ensures r.Success? <==> forall j :: k <= j < |atts| ==> PassesFirstPass(atts[j])
    decreases |atts| - k
  {
    if k == |atts| then Success(acc)
    else
      var att :- AsDict(atts[k], "keys");
      if OffersQuestions(att) then
        var questions := OfferedQuestions(att);
        var count :- Len(questions);
        CollectSuggestions(atts, k + 1, questions)
      else CollectSuggestions(atts, k + 1, acc)
  }

  // ---------------------------------------------------------------- content

  /** Of the attachments from `k` on that get through the first pass, the
      last one offering questions supplies the suggestions; when none offers
      any, the suggestions are `acc`. */
  lemma {:induction false} CollectSuggestionsLast(atts: seq<Json>, k: nat, acc: Json)
    requires k <= |atts|
    requires forall j :: k <= j < |atts| ==> PassesFirstPass(atts[j])
    ensures (forall j :: k <= j < |atts| ==> !OffersQuestions(atts[j])) ==> CollectSuggestions(atts, k, acc) == Success(acc)
    ensures forall j :: k <= j < |atts| && OffersQuestions(atts[j]) && (forall l :: j < l < |atts| ==> !OffersQuestions(atts[l])) ==>
              CollectSuggestions(atts, k, acc) == Success(OfferedQuestions(atts[j]))
    decreases |atts| - k
  {
    if k < |atts| {
      var next := if OffersQuestions(atts[k]) then OfferedQuestions(atts[k]) else acc;
      assert CollectSuggestions(atts, k, acc) == CollectSuggestions(atts, k + 1, next);
      CollectSuggestionsLast(atts, k + 1, next);
    }
  }

  /** The text test of the second pass: `"text" in attachment and "content"
      in attachment["text"]`, for a dict attachment. */
  function HasTextContent(att: Json): Result<bool, Fault> {
    if HasKey(att, "text") then In("content", Field(att, "text", JNull)) else Success(false)
  }

  /** One turn of the second pass over a dict attachment: break with its text,
      break with its table, move on (`None`), or raise. The query result is
      fetched with the message id the caller passes, and a query whose rows
      are falsy is passed over. */
  function ContentStep(fetch: Fetcher, conversationId: Json, messageId: Json, att: Json): (r: Result<Option<Found>, Fault>)
    ensures r.Success? ==> att.JObj?
    ensures att.JObj? && HasKey(att, "text") && HasKey(Field(att, "text", JNull), "content") ==>
              r == Success(Some(FoundText(Field(Field(att, "text", JNull), "content", JNull))))
    ensures att.JObj? && HasTextContent(att) == Success(false) && !HasKey(att, "query") ==> r == Success(None)
    ensures att.JObj? && HasTextContent(att).Failure? ==> r == Failure(HasTextContent(att).error)
    ensures att.JObj? && HasTextContent(att) == Success(true) && !HasKey(Field(att, "text", JNull), "content") ==>
              r == Failure(Index(Field(att, "text", JNull), "content").error)
    ensures r.Success? && r.value.Some? && r.value.value.FoundTable? ==>
              HasKey(att, "query") && Truthy(r.value.value.table.data)
              && r.value.value.queryText == Field(Field(att, "query", JObj([])), "query", JStr(""))
  {
    var attachmentId :- DictGet(att, "attachment_id", JNull);
    var textFirst :- HasTextContent(att);
    if textFirst then
      var content :- Index(Field(att, "text", JNull), "content");
      Success(Some(FoundText(content)))
    else if HasKey(att, "query") then
      var query := Field(att, "query", JObj([]));
      var queryText :- DictGet(query, "query", JStr(""));
      var body :- fetch(conversationId, messageId, attachmentId);
      var result :- ExtractQueryResult(body);
      var columns :- ColumnNames(result.schema);
      if Truthy(result.dataArray) then
        var table :- BuildTable(columns, result.dataArray);
        Success(Some(FoundTable(table, queryText)))
      else Success(None)
    else Success(None)
  }

  /** The body of the second pass for one attachment. */
  type Turn = Json -> Result<Option<Found>, Fault>

  /** The second pass's body under the ids `process_genie_response` was given. */
  function TurnOf(fetch: Fetcher, conversationId: Json, messageId: Json): Turn {
    att => ContentStep(fetch, conversationId, messageId, att)
  }

  /** The second pass from attachment `k` on: the first turn that breaks the
      loop or raises ends it. */
  function ContentPass(turn: Turn, atts: seq<Json>, k: nat): (r: Result<Option<Found>, Fault>)
    requires k <= |atts|
    ensures r != Success(None) ==> exists i :: k <= i < |atts| && turn(atts[i]) == r
    decreases |atts| - k
  {
    if k == |atts| then Success(None)
    else
      var step :- turn(atts[k]);
      if step.Some? then Success(step) else ContentPass(turn, atts, k + 1)
  }

  /** The first attachment (from `k` on) whose turn breaks the loop or
      raises, here the one at `i`, decides the second pass. */
  lemma {:induction false} ContentPassFirst(turn: Turn, atts: seq<Json>, k: nat, i: nat)
    requires k <= i < |atts|
    requires forall j :: k <= j < i ==> turn(atts[j]) == Success(None)
    requires turn(atts[i]) != Success(None)
    ensures ContentPass(turn, atts, k) == turn(atts[i])
    decreases i - k
  {
    if k < i {
      assert turn(atts[k]) == Success(None);
      assert ContentPass(turn, atts, k) == ContentPass(turn, atts, k + 1);
      ContentPassFirst(turn, atts, k + 1, i);
    }
  }

  /** When every turn from `k` on moves on, the pass finds nothing. */
  lemma {:induction false} ContentPassNothing(turn: Turn, atts: seq<Json>, k: nat)
    requires k <= |atts|
    requires forall j :: k <= j < |atts| ==> turn(atts[j]) == Success(None)
    ensures ContentPass(turn, atts, k) == Success(None)
    decreases |atts| - k
  {
    if k < |atts| {
      assert turn(atts[k]) == Success(None);
      ContentPassNothing(turn, atts, k + 1);
    }
  }

  /** The second pass sees the attachments only through its turns: turns
      that agree on every attachment give the same pass. */
  lemma {:induction false} ContentPassSameTurns(turn: Turn, other: Turn, atts: seq<Json>, k: nat)
    requires k <= |atts|
    requires forall j :: k <= j < |atts| ==> turn(atts[j]) == other(atts[j])
    ensures ContentPass(turn, atts, k) == ContentPass(other, atts, k)
    decreases |atts| - k
  {
    if k < |atts| {
      ContentPassSameTurns(turn, other, atts, k + 1);
    }
  }

  /** The return statements after the two passes. A text found with a `None`
      content counts as nothing found (`result is not None`); then the
      message's own `content` is used if the key is there, and otherwise the
      placeholder, which drops the collected suggestions. */
  function Conclude(message: Json, suggestions: Json, found: Option<Found>): (r: Normalized)
    ensures r.queryText != JNull ==> r.answer.TableAnswer?
    ensures found.Some? && found.value.FoundTable? ==> r == Normalized(TableAnswer(found.value.table), found.value.queryText, suggestions)
    ensures r.suggestions == suggestions || (r == Normalized(TextAnswer(JStr(NoResponse)), JNull, JArr([])) && !HasKey(message, "content"))
    ensures r.answer.TextAnswer? ==> r.queryText == JNull
    ensures found.Some? && found.value.FoundText? && found.value.content != JNull ==>
              r == Normalized(TextAnswer(found.value.content), JNull, suggestions)
    ensures (found.None? || found.value == FoundText(JNull)) && HasKey(message, "content") ==>
              r == Normalized(TextAnswer(Field(message, "content", JNull)), JNull, suggestions)
    ensures (found.None? || found.value == FoundText(JNull)) && !HasKey(message, "content") ==>
              r == Normalized(TextAnswer(JStr(NoResponse)), JNull, JArr([]))
  {
    if found.Some? && found.value.FoundTable? then
      Normalized(TableAnswer(found.value.table), found.value.queryText, suggestions)
    else if found.Some? && found.value.content != JNull then
      Normalized(TextAnswer(found.value.content), JNull, suggestions)
    else if HasKey(message, "content") then
      Normalized(TextAnswer(Field(message, "content", JStr(""))), JNull, suggestions)
    else
      Normalized(TextAnswer(JStr(NoResponse)), JNull, JArr([]))
  }

  /** `process_genie_response(client, conversation_id, message_id, message)`. */
  function ProcessResponse(fetch: Fetcher, conversationId: Json, messageId: Json, message: Json): (r: Result<Normalized, Fault>)
    ensures r.Success? ==> message.JObj?
  {
    var attachments :- DictGet(message, "attachments", JArr([]));
    var atts :- Sized(attachments);
    var suggestions :- CollectSuggestions(atts, 0, JArr([]));
    var found :- ContentPass(TurnOf(fetch, conversationId, messageId), atts, 0);
    Success(Conclude(message, suggestions, found))
  }

  /** An attachment carrying inline text `content` (under `text.content`). */
  predicate CarriesText(att: Json, content: Json) {
    && HasKey(att, "text")
    && HasKey(Field(att, "text", JNull), "content")
    && Field(Field(att, "text", JNull), "content", JNull) == content
  }

  /** The shape of a message whose attachments are the list `atts`, each of
      which the first pass gets through. */
  predicate HasAttachments(message: Json, atts: seq<Json>) {
    && message.JObj?
    && Field(message, "attachments", JArr([])) == JArr(atts)
    && forall j :: 0 <= j < |atts| ==> PassesFirstPass(atts[j])
  }

  /** A first attachment with a non-null text wins: the answer is that text
      with no query text, the suggestions are the collected ones, and no
      query result is fetched (any other attachment, a query included, is
      ignored). */
  lemma ProcessTextFirst(fetch: Fetcher, conversationId: Json, messageId: Json, message: Json, atts: seq<Json>, content: Json)
    requires HasAttachments(message, atts)
    requires |atts| > 0 && CarriesText(atts[0], content) && content != JNull
    ensures ProcessResponse(fetch, conversationId, messageId, message)
            == Success(Normalized(TextAnswer(content), JNull, CollectSuggestions(atts, 0, JArr([])).value))
  {
    assert ContentStep(fetch, conversationId, messageId, atts[0]) == Success(Some(FoundText(content)));
    assert ContentPass(TurnOf(fetch, conversationId, messageId), atts, 0) == Success(Some(FoundText(content)));
  }

  /** When no attachment breaks the second pass, the message's own `content`
      is the answer (with the collected suggestions) if the key is there;
      otherwise the placeholder, with no suggestions at all. */
  lemma ProcessFallback(fetch: Fetcher, conversationId: Json, messageId: Json, message: Json, atts: seq<Json>)
    requires HasAttachments(message, atts)
    requires forall j :: 0 <= j < |atts| ==> ContentStep(fetch, conversationId, messageId, atts[j]) == Success(None)
    ensures HasKey(message, "content") ==>
              ProcessResponse(fetch, conversationId, messageId, message)
              == Success(Normalized(TextAnswer(Field(message, "content", JNull)), JNull, CollectSuggestions(atts, 0, JArr([])).value))
    ensures !HasKey(message, "content") ==>
              ProcessResponse(fetch, conversationId, messageId, message)
              == Success(Normalized(TextAnswer(JStr(NoResponse)), JNull, JArr([])))
  {
    forall j | 0 <= j < |atts|
      ensures TurnOf(fetch, conversationId, messageId)(atts[j]) == Success(None)
    {
      assert ContentStep(fetch, conversationId, messageId, atts[j]) == Success(None);
    }
    ContentPassNothing(TurnOf(fetch, conversationId, messageId), atts, 0);
    var suggestions := CollectSuggestions(atts, 0, JArr([]));
    assert suggestions.Success?;
    assert Sized(JArr(atts)) == Success(atts);
    assert ProcessResponse(fetch, conversationId, messageId, message) == Success(Conclude(message, suggestions.value, None));
  }

  /** Whichever attachment first stops the second pass (a text at any
      position, or a query with rows) decides the normalised answer, with
      the suggestions of the first pass. */
  lemma ProcessFirstWinner(fetch: Fetcher, conversationId: Json, messageId: Json, message: Json, atts: seq<Json>, i: nat, f: Found)
    requires HasAttachments(message, atts)
    requires i < |atts|
    requires forall j :: 0 <= j < i ==> ContentStep(fetch, conversationId, messageId, atts[j]) == Success(None)
    requires ContentStep(fetch, conversationId, messageId, atts[i]) == Success(Some(f))
    ensures ProcessResponse(fetch, conversationId, messageId, message)
            == Success(Conclude(message, CollectSuggestions(atts, 0, JArr([])).value, Some(f)))
  {
    forall j | 0 <= j < i
      ensures TurnOf(fetch, conversationId, messageId)(atts[j]) == Success(None)
    {
      assert ContentStep(fetch, conversationId, messageId, atts[j]) == Success(None);
    }
    ContentPassFirst(TurnOf(fetch, conversationId, messageId), atts, 0, i);
    var found := ContentPass(TurnOf(fetch, conversationId, messageId), atts, 0);
    assert found == Success(Some(f));
    var suggestions := CollectSuggestions(atts, 0, JArr([]));
    assert suggestions.Success?;
    assert DictGet(message, "attachments", JArr([])) == Success(JArr(atts));
    assert Sized(JArr(atts)) == Success(atts);
    assert ProcessResponse(fetch, conversationId, messageId, message) == Success(Conclude(message, suggestions.value, found.value));
  }

  /** A query attachment (and no text) whose result has rows but a schema
      without columns yields a table whose columns are named `column_0` ...
      after the first row's width, with the attachment's `query.query` as
      the query text. */
  lemma QueryWithoutSchemaNames(fetch: Fetcher, conversationId: Json, messageId: Json, att: Json, rows: seq<Json>, width: seq<Json>)
    requires att.JObj? && HasTextContent(att) == Success(false) && HasKey(att, "query") && Field(att, "query", JObj([])).JObj?
    requires fetch(conversationId, messageId, Field(att, "attachment_id", JNull)) == Success(QueryResponse(JArr(rows), JObj([])))
    requires |rows| > 0 && rows[0] == JArr(width)
    ensures ContentStep(fetch, conversationId, messageId, att)
            == Success(Some(FoundTable(Table(SynthColumns(|width|), JArr(rows)), Field(Field(att, "query", JObj([])), "query", JStr("")))))
  {
    ExtractQueryResponse(JArr(rows), JObj([]));
  }

  /** A query attachment (and no text content) whose result has rows and a
      schema naming its columns stops the pass with a table under those
      names, carrying the attachment's `query.query`. */
  lemma QueryWithSchemaNames(fetch: Fetcher, conversationId: Json, messageId: Json, att: Json, data: Json, schema: Json, names: seq<Json>)
    requires att.JObj? && HasTextContent(att) == Success(false) && HasKey(att, "query") && Field(att, "query", JObj([])).JObj?
    requires fetch(conversationId, messageId, Field(att, "attachment_id", JNull)) == Success(QueryResponse(data, schema))
    requires ColumnNames(schema) == Success(names) && |names| > 0 && Truthy(data)
    ensures ContentStep(fetch, conversationId, messageId, att)
            == Success(Some(FoundTable(Table(names, data), Field(Field(att, "query", JObj([])), "query", JStr("")))))
  {
    ExtractQueryResponse(data, schema);
  }

  /** A query attachment (and no text content) whose result has no rows is passed
      over, whatever its query text, provided the schema's column names can
      be read. */
  lemma QueryWithoutRowsPassedOver(fetch: Fetcher, conversationId: Json, messageId: Json, att: Json, schema: Json)
    requires att.JObj? && HasTextContent(att) == Success(false) && HasKey(att, "query") && Field(att, "query", JObj([])).JObj?
    requires fetch(conversationId, messageId, Field(att, "attachment_id", JNull)) == Success(QueryResponse(JArr([]), schema))
    requires ColumnNames(schema).Success?
    ensures ContentStep(fetch, conversationId, messageId, att) == Success(None)
  {
    ExtractQueryResponse(JArr([]), schema);
  }

  /** A query attachment whose result cannot be fetched raises what the fetch
      raised; nothing is caught. */
  lemma QueryFetchFails(fetch: Fetcher, conversationId: Json, messageId: Json, att: Json, f: Fault)
    requires att.JObj? && HasTextContent(att) == Success(false) && HasKey(att, "query") && Field(att, "query", JObj([])).JObj?
    requires fetch(conversationId, messageId, Field(att, "attachment_id", JNull)) == Failure(f)
    ensures ContentStep(fetch, conversationId, messageId, att) == Failure(f)
  {
  }

  /** The column names are built before the rows are tested, so a malformed
      schema raises even when there are no rows. */
  lemma QueryMalformedSchemaRaises(fetch: Fetcher, conversationId: Json, messageId: Json, att: Json, schema: Json)
    requires att.JObj? && HasTextContent(att) == Success(false) && HasKey(att, "query") && Field(att, "query", JObj([])).JObj?
    requires fetch(conversationId, messageId, Field(att, "attachment_id", JNull)) == Success(QueryResponse(JArr([]), schema))
    requires ColumnNames(schema).Failure?
    ensures ContentStep(fetch, conversationId, messageId, att) == Failure(ColumnNames(schema).error)
  {
    ExtractQueryResponse(JArr([]), schema);
  }

  /** The query-result endpoint is consulted only with the message id the
      caller passes in: two endpoints that agree on those calls give the
      same normalised response. */
  lemma ProcessUsesGivenMessageId(fetch: Fetcher, other: Fetcher, conversationId: Json, messageId: Json, message: Json)
    requires forall attachmentId :: fetch(conversationId, messageId, attachmentId) == other(conversationId, messageId, attachmentId)
    ensures ProcessResponse(fetch, conversationId, messageId, message) == ProcessResponse(other, conversationId, messageId, message)
  {
    if message.JObj? {
      var attachments := Field(message, "attachments", JArr([]));
      if IsSized(attachments) {
        var atts := Elements(attachments).value;
        forall j | 0 <= j < |atts|
          ensures TurnOf(fetch, conversationId, messageId)(atts[j]) == TurnOf(other, conversationId, messageId)(atts[j])
        {
          ContentStepSameFetch(fetch, other, conversationId, messageId, atts[j]);
        }
        ContentPassSameTurns(TurnOf(fetch, conversationId, messageId), TurnOf(other, conversationId, messageId), atts, 0);
      }
    }
  }

  /** One turn of the second pass consults the endpoint only under the
      message id it is given. */
  lemma ContentStepSameFetch(fetch: Fetcher, other: Fetcher, conversationId: Json, messageId: Json, att: Json)
    requires forall attachmentId :: fetch(conversationId, messageId, attachmentId) == other(conversationId, messageId, attachmentId)
    ensures ContentStep(fetch, conversationId, messageId, att) == ContentStep(other, conversationId, messageId, att)
  {
  }
}

=== FILE: poller.dfy ===
/** The completion poller, `GenieClient.wait_for_message_completion`: fetch the
    submitted message until its status is terminal, checking a deadline
    before every fetch. The wall clock and the `get_message` endpoint are
    replaced by the sequence of observations one run of the loop makes. */
module Poller {
  import opened Wrappers
  import opened JsonValues

  /** The deadline every caller uses, in seconds. */
  const DefaultTimeout: nat := 300

  /** One turn of the loop: the seconds elapsed since the start when the
      deadline is checked, and what `get_message` returns (or raises) if the
      check lets it be called. */
  datatype Tick = Tick(elapsed: real, reply: Result<Json, Fault>)

  /** The loop's outcome (the returned message or the raised exception) and
      how many times it called `get_message`. */
  datatype PollRun = PollRun(outcome: Result<Json, Fault>, fetches: nat)

  /** The statuses that end the wait. */
  predicate IsTerminal(status: Json) {
    status == JStr("COMPLETED") || status == JStr("ERROR") || status == JStr("FAILED")
  }

  /** The clock eventually reads at least `timeout`: the observations end with
      a deadline check that fails, as the two-second sleep between polls
      guarantees of the real clock. */
  predicate DeadlinePasses(ticks: seq<Tick>, timeout: nat) {
    |ticks| > 0 && ticks[|ticks| - 1].elapsed >= timeout as real
  }

  /** The loop body after a fetch: `None` to sleep and poll again, or the way
      the loop ends. A missing or unknown status polls again; `ERROR` and
      `FAILED` end it with the message, as data. */
  function Step(reply: Result<Json, Fault>): (r: Option<Result<Json, Fault>>)
    ensures r.None? <==> reply.Success? && reply.value.JObj? && !IsTerminal(Field(reply.value, "status", JNull))
    ensures reply.Success? && reply.value.JObj? && IsTerminal(Field(reply.value, "status", JNull)) ==> r == Some(reply)
    ensures reply.Failure? ==> r == Some(reply)
    ensures r.Some? && r.value.Success? ==> r.value == reply
  {
    match reply
    case Failure(f) => Some(Failure(f))
    case Success(message) =>
      match DictGet(message, "status", JNull)
      case Failure(f) => Some(Failure(f))
      case Success(status) => if IsTerminal(status) then Some(Success(message)) else None
  }

  /** The loop from its `k`-th deadline check on. Every fetch happens before
      the deadline; every fetch but the last asked to poll again; and the run
      ends either on a failed deadline check, raising the timeout with no
      further fetch, or with what the last fetch decided. */
  function PollFrom(ticks: seq<Tick>, timeout: nat, k: nat): (r: PollRun)
    requires k < |ticks| && DeadlinePasses(ticks, timeout)
    ensures k <= r.fetches < |ticks|
    ensures forall j :: k <= j < r.fetches ==> ticks[j].elapsed < timeout as real
    ensures forall j :: k <= j < r.fetches - 1 ==> Step(ticks[j].reply).None?
    ensures || (&& r.outcome == Failure(Timeout(timeout))
                && ticks[r.fetches].elapsed >= timeout as real
                && forall j :: k <= j < r.fetches ==> Step(ticks[j].reply).None?)
            || (k < r.fetches && Step(ticks[r.fetches - 1].reply) == Some(r.outcome))
    decreases |ticks| - k
  {
    if ticks[k].elapsed >= timeout as real then PollRun(Failure(Timeout(timeout)), k)
    else
      match Step(ticks[k].reply)
      case Some(outcome) => PollRun(outcome, k + 1)
      case None => PollFrom(ticks, timeout, k + 1)
  }

  /** `wait_for_message_completion(conversation_id, message_id, timeout)`. */
  function Poll(ticks: seq<Tick>, timeout: nat): (r: PollRun)
    requires DeadlinePasses(ticks, timeout)
    ensures r.fetches < |ticks|
    ensures r.outcome.Success? ==> r.fetches > 0 && ticks[r.fetches - 1].reply == r.outcome
    ensures r.outcome.Success? ==> r.outcome.value.JObj? && IsTerminal(Field(r.outcome.value, "status", JNull))
  {
    PollFrom(ticks, timeout, 0)
  }

  /** Before the deadline, `n` fetches that ask to poll again followed by one
      that ends the loop: the poller makes exactly `n + 1` fetches and ends
      the way the last one decided (returning an `ERROR` or `FAILED` message
      like a `COMPLETED` one). */
  lemma {:induction false} PollStopsAtFirstDecision(ticks: seq<Tick>, timeout: nat, n: nat, outcome: Result<Json, Fault>)
    requires DeadlinePasses(ticks, timeout)
    requires n < |ticks|
    requires forall j :: 0 <= j <= n ==> ticks[j].elapsed < timeout as real
    requires forall j :: 0 <= j < n ==> Step(ticks[j].reply).None?
    requires Step(ticks[n].reply) == Some(outcome)
    ensures Poll(ticks, timeout) == PollRun(outcome, n + 1)
  {
    PollFromStops(ticks, timeout, n, outcome, 0);
  }

  lemma {:induction false} PollFromStops(ticks: seq<Tick>, timeout: nat, n: nat, outcome: Result<Json, Fault>, k: nat)
    requires DeadlinePasses(ticks, timeout)
    requires k <= n < |ticks|
    requires forall j :: k <= j <= n ==> ticks[j].elapsed < timeout as real
    requires forall j :: k <= j < n ==> Step(ticks[j].reply).None?
    requires Step(ticks[n].reply) == Some(outcome)
    ensures PollFrom(ticks, timeout, k) == PollRun(outcome, n + 1)
    decreases n - k
  {
    if k < n {
      PollFromStops(ticks, timeout, n, outcome, k + 1);
    }
  }

  /** When the deadline check fails after `n` fetches that all asked to poll
      again, the poller raises the timeout and makes no further fetch. */
  lemma {:induction false} PollTimesOut(ticks: seq<Tick>, timeout: nat, n: nat)
    requires DeadlinePasses(ticks, timeout)
    requires n < |ticks|
    requires forall j :: 0 <= j < n ==> ticks[j].elapsed < timeout as real && Step(ticks[j].reply).None?
    requires ticks[n].elapsed >= timeout as real
    ensures Poll(ticks, timeout) == PollRun(Failure(Timeout(timeout)), n)
  {
    PollFromTimesOut(ticks, timeout, n, 0);
  }

  lemma {:induction false} PollFromTimesOut(ticks: seq<Tick>, timeout: nat, n: nat, k: nat)
    requires DeadlinePasses(ticks, timeout)
    requires k <= n < |ticks|
    requires forall j :: k <= j < n ==> ticks[j].elapsed < timeout as real && Step(ticks[j].reply).None?
    requires ticks[n].elapsed >= timeout as real
    ensures PollFrom(ticks, timeout, k) == PollRun(Failure(Timeout(timeout)), n)
    decreases n - k
  {
    if k < n {
      PollFromTimesOut(ticks, timeout, n, k + 1);
    }
  }
}

=== FILE: resolver.dfy ===
/** Answer resolution: the message id returned on submission names the USER's
    message, and the answer to normalise is the entry that follows it in the
    conversation's message list. Also the scan `genie_query` makes for the id
    of the last non-USER message. */
module Resolver {
  import opened Wrappers
  import opened JsonValues

  /** `msg.get("message_id")` for a message dict. */
  function MessageId(m: Json): Json {
    Field(m, "message_id", JNull)
  }

  /** `messages_response.get("messages", [])` followed by `len(messages)` and
      iteration. A string or dict iterates as its characters or keys, none of
      which is a dict, so anything but a list of dicts ends in an error once
      the resolver touches its first element. */
  function MessageList(response: Json): (r: Result<seq<Json>, Fault>)
    ensures response.JObj? && !HasKey(response, "messages") ==> r == Success([])
    ensures response.JObj? && Field(response, "messages", JNull).JArr? ==> r == Success(Field(response, "messages", JNull).items)
    ensures !response.JObj? ==> r.Failure?
  {
    var messages :- DictGet(response, "messages", JArr([]));
    Sized(messages)
  }

  /** Message `i` is the first one in the list whose id is `id`. */
  ghost predicate FirstMatchAt(msgs: seq<Json>, id: Json, i: int) {
    && 0 <= i < |msgs|
    && MessageId(msgs[i]) == id
    && forall j :: 0 <= j < i ==> MessageId(msgs[j]) != id
  }

  ghost predicate AllDicts(msgs: seq<Json>) {
    forall j :: 0 <= j < |msgs| ==> msgs[j].JObj?
  }

  /** The `for i, msg in enumerate(messages)` loop from position `i` on: the
      index of the first message whose id is `id`, stopping there. Every
      message read before the stop must be a dict, since the loop calls
      `msg.get` on it. */
  function ScanFor(msgs: seq<Json>, id: Json, i: nat): (r: Result<Option<nat>, Fault>)
    requires i <= |msgs|
    ensures (forall j :: i <= j < |msgs| ==> msgs[j].JObj?) ==> r.Success?
    ensures r.Success? && r.value.Some? ==>
              && i <= r.value.value < |msgs|
              && MessageId(msgs[r.value.value]) == id
              && forall j :: i <= j < r.value.value ==> MessageId(msgs[j]) != id
    ensures r.Success? && r.value.Some? ==> forall j :: i <= j <= r.value.value ==> msgs[j].JObj?
    ensures r.Success? && r.value.None? ==> forall j :: i <= j < |msgs| ==> msgs[j].JObj? && MessageId(msgs[j]) != id
    ensures r.Failure? ==> exists j :: i <= j < |msgs| && !msgs[j].JObj?
    decreases |msgs| - i
  {
    if i == |msgs| then Success(None)
    else
      var current :- DictGet(msgs[i], "message_id", JNull);
      if current == id then Success(Some(i)) else ScanFor(msgs, id, i + 1)
  }

  /** The answer-selection block of `start_new_conversation` and
      `continue_conversation`: the message after the first one with the
      submitted id, if there is one and it is truthy; otherwise the last
      message of a non-empty list; otherwise the polled message. Each
      candidate is logged with `.get`, so each must be a dict. */
  function ResolveAnswer(submitted: Json, polled: Json, msgs: seq<Json>): (r: Result<Json, Fault>)
    ensures r.Success? && |msgs| > 0 ==> r.value in msgs && r.value.JObj?
    ensures r.Success? && |msgs| == 0 ==> r.value == polled
    ensures r.Failure? ==> exists j :: 0 <= j < |msgs| && !msgs[j].JObj?
  {
    var hit :- ScanFor(msgs, submitted, 0);
    var next :- if hit.Some? && hit.value + 1 < |msgs| then AsDict(msgs[hit.value + 1], "get") else Success(JNull);
    if Truthy(next) then Success(next)
    else if |msgs| > 0 then AsDict(msgs[|msgs| - 1], "get")
    else Success(polled)
  }

  /** With a list of dicts the resolver never fails, and picks: the successor
      of the first message carrying the submitted id when that successor is a
      non-empty dict; the last message when the first match is the last entry,
      has an empty successor, or there is no match (so the USER message itself
      can be the answer); and the polled message only for an empty list. */
  lemma ResolveAnswerSpec(submitted: Json, polled: Json, msgs: seq<Json>)
    requires AllDicts(msgs)
    ensures forall i :: FirstMatchAt(msgs, submitted, i) && i + 1 < |msgs| && Truthy(msgs[i + 1]) ==>
              ResolveAnswer(submitted, polled, msgs) == Success(msgs[i + 1])
    ensures forall i :: FirstMatchAt(msgs, submitted, i) && (i + 1 == |msgs| || !Truthy(msgs[i + 1])) ==>
              ResolveAnswer(submitted, polled, msgs) == Success(msgs[|msgs| - 1])
    ensures (forall j :: 0 <= j < |msgs| ==> MessageId(msgs[j]) != submitted) ==>
              ResolveAnswer(submitted, polled, msgs) == Success(if |msgs| > 0 then msgs[|msgs| - 1] else polled)
  {
    var hit := ScanFor(msgs, submitted, 0);
    assert hit.Success?;
    forall i | FirstMatchAt(msgs, submitted, i)
      ensures hit.value == Some(i)
    {
    }
  }

  /** The role test of the `genie_query` scan: the message is not the USER's. */
  predicate NotFromUser(m: Json) {
    Field(m, "role", JNull) != JStr("USER")
  }

  /** `for msg in reversed(messages[:k])`: the id of the last message before
      position `k` whose role is not `USER`, or `None` when all are USER
      messages. Every message scanned must be a dict. */
  function LastNotFromUser(msgs: seq<Json>, k: nat): (r: Result<Json, Fault>)
    requires k <= |msgs|
    ensures (forall j :: 0 <= j < k ==> msgs[j].JObj?) ==> r.Success?
    ensures r.Success? && (forall j :: 0 <= j < k ==> !NotFromUser(msgs[j])) ==> r.value == JNull
    ensures r.Success? ==> forall j :: 0 <= j < k && NotFromUser(msgs[j]) && (forall l :: j < l < k ==> !NotFromUser(msgs[l])) ==>
              r.value == MessageId(msgs[j])
    decreases k
  {
    if k == 0 then Success(JNull)
    else
      var role :- DictGet(msgs[k - 1], "role", JNull);
      if role != JStr("USER") then DictGet(msgs[k - 1], "message_id", JNull)
      else LastNotFromUser(msgs, k - 1)
  }

  /** The bot-message-id block of `genie_query` on `messages`: `None` when the
      value is falsy; otherwise the id of the last non-USER message. */
  function BotMessageId(messages: Json): (r: Result<Json, Fault>)
    ensures !Truthy(messages) ==> r == Success(JNull)
    ensures Truthy(messages) && !IsSized(messages) ==> r == Failure(Py(NotReversible(TypeName(messages))))
  {
    if !Truthy(messages) then Success(JNull)
    else
      match Elements(messages)
      case None => Failure(Py(NotReversible(TypeName(messages))))
      case Some(msgs) => LastNotFromUser(msgs, |msgs|)
  }

  /** For a list of message dicts, `genie_query` reports the `message_id` of
      the last message whose role is not USER. It reports `None` when every
      message is a USER message, and also when that last non-USER message
      has no `message_id`. */
  lemma BotMessageIdSpec(msgs: seq<Json>)
    requires AllDicts(msgs)
    ensures BotMessageId(JArr(msgs)).Success?
    ensures (forall j :: 0 <= j < |msgs| ==> !NotFromUser(msgs[j])) ==> BotMessageId(JArr(msgs)) == Success(JNull)
    ensures forall j :: 0 <= j < |msgs| && NotFromUser(msgs[j]) && (forall l :: j < l < |msgs| ==> !NotFromUser(msgs[l])) ==>
              BotMessageId(JArr(msgs)) == Success(MessageId(msgs[j]))
  {
  }
}

=== FILE: space.dfy ===
/** The parsing halves of `get_sample_questions` and `get_space_info`: both
    read the space-details response, and both may decode the JSON string
    `serialized_space` a second time. Decoding is the parameter `parse`,
    `None` standing for a JSONDecodeError. Every exception these functions
    meet is caught and turned into an empty or `None` result. */
module Space {
  import opened Wrappers
  import opened JsonValues

  /** `json.loads` on a string: the decoded value, or `None` when it raises. */
  type Parser = string -> Option<Json>

  // ---------------------------------------------------------------- sample questions

  /** What one item of `config.sample_questions` contributes: a dict with
      `question` gives the first element of a non-empty list, or the string
      itself (even an empty one); every other item gives nothing. */
  function SampleQuestion(item: Json): (r: Option<Json>)
    ensures r.Some? <==> HasKey(item, "question")
                         && (|| Field(item, "question", JNull).JStr?
                             || (Field(item, "question", JNull).JArr? && |Field(item, "question", JNull).items| > 0))
    ensures r.Some? ==> item.JObj? && HasKey(item, "question")
    ensures r.Some? ==> r.value.JStr? || Field(item, "question", JNull).JArr?
    ensures HasKey(item, "question") && Field(item, "question", JNull).JStr? ==> r == Some(Field(item, "question", JNull))
    ensures HasKey(item, "question") && Field(item, "question", JNull).JArr? && |Field(item, "question", JNull).items| > 0 ==>
              r == Some(Field(item, "question", JNull).items[0])
  {
    if HasKey(item, "question") then
      match Field(item, "question", JNull)
      case JArr(xs) => if |xs| > 0 then Some(xs[0]) else None
      case JStr(s) => Some(JStr(s))
      case _ => None
    else None
  }

  /** The extraction loop over the items, in order. */
  function SampleQuestions(items: seq<Json>): (r: seq<Json>)
    ensures |r| <= |items|
  {
    if |items| == 0 then []
    else
      match SampleQuestion(items[0])
      case Some(q) => [q] + SampleQuestions(items[1..])
      case None => SampleQuestions(items[1..])
  }

  /** The loop keeps input order and treats items independently: extracting
      from two runs of items one after the other is extracting from each. */
  lemma {:induction false} SampleQuestionsAppend(xs: seq<Json>, ys: seq<Json>)
    ensures SampleQuestions(xs + ys) == SampleQuestions(xs) + SampleQuestions(ys)
  {
    if |xs| == 0 {
      assert xs + ys == ys;
    } else {
      assert (xs + ys)[1..] == xs[1..] + ys;
      SampleQuestionsAppend(xs[1..], ys);
    }
  }

  /** A single item contributes exactly what `SampleQuestion` says. */
  lemma SampleQuestionsSingle(item: Json)
    ensures SampleQuestions([item]) == (match SampleQuestion(item) case Some(q) => [q] case None => [])
  {
    assert [item][1..] == [];
  }

  /** The decoded configuration of non-empty string `serialized_space`, or
      `None` when there is none or decoding fails. */
  function DecodedConfig(details: Json, parse: Parser): Option<Json> {
    var serialized := Field(details, "serialized_space", JNull);
    if details.JObj? && serialized.JStr? && |serialized.s| > 0 then parse(serialized.s) else None
  }

  /** `space_config.get('config', {}).get('sample_questions', [])` of the
      decoded configuration, or `JNull` when a step of that chain raises. */
  function SampleItems(details: Json, parse: Parser): Json {
    match DecodedConfig(details, parse)
    case None => JNull
    case Some(config) =>
      if config.JObj? && Field(config, "config", JObj([])).JObj? then
        Field(Field(config, "config", JObj([])), "sample_questions", JArr([]))
      else JNull
  }

  /** Every step from `serialized_space` to an iterable list of items
      succeeds: a string that decodes to a dict whose `config` is a dict
      whose `sample_questions` can be iterated. */
  predicate DecodesToSamples(details: Json, parse: Parser) {
    DecodedConfig(details, parse).Some? && IsSized(SampleItems(details, parse))
  }

  /** The body of `get_sample_questions` after the details arrived, up to the
      loop; `None` is any exception, which the caller turns into `[]`. */
  function SampleQuestionsOf(details: Json, parse: Parser): (r: Option<seq<Json>>)
    ensures details.JObj? && !Truthy(Field(details, "serialized_space", JNull)) ==> r == Some([])
    ensures r.None? <==> !details.JObj? || (Truthy(Field(details, "serialized_space", JNull)) && !DecodesToSamples(details, parse))
    ensures DecodesToSamples(details, parse) ==> r == Some(SampleQuestions(Elements(SampleItems(details, parse)).value))
  {
    if !details.JObj? then None
    else
      var serialized := Field(details, "serialized_space", JNull);
      if !Truthy(serialized) then Some([])
      else if !serialized.JStr? then None
      else
        match parse(serialized.s)
        case None => None
        case Some(config) =>
          if !config.JObj? then None
          else
            var inner := Field(config, "config", JObj([]));
            if !inner.JObj? then None
            else
              match Elements(Field(inner, "sample_questions", JArr([])))
              case None => None
              case Some(items) => Some(SampleQuestions(items))
  }

  /** `get_sample_questions()`, given what the space-details call returned or
      raised: the sample questions, or `[]` on any failure. */
  function GetSampleQuestions(details: Result<Json, Fault>, parse: Parser): (r: seq<Json>)
    ensures details.Failure? ==> r == []
    ensures details.Success? && details.value.JObj? && !Truthy(Field(details.value, "serialized_space", JNull)) ==> r == []
    ensures details.Success? && (!details.value.JObj? || !DecodesToSamples(details.value, parse)) ==> r == []
    ensures details.Success? && DecodesToSamples(details.value, parse) ==>
              r == SampleQuestions(Elements(SampleItems(details.value, parse)).value)
  {
    match details
    case Failure(_) => []
    case Success(d) => SampleQuestionsOf(d, parse).GetOr([])
  }

  /** The space details whose `serialized_space` decodes to a config with the
      list `items` of sample questions. */
  predicate ConfiguresSamples(details: Json, parse: Parser, items: seq<Json>) {
    && details.JObj?
    && Field(details, "serialized_space", JNull).JStr?
    && |Field(details, "serialized_space", JNull).s| > 0
    && parse(Field(details, "serialized_space", JNull).s).Some?
    && var config := parse(Field(details, "serialized_space", JNull).s).value;
       && config.JObj?
       && Field(config, "config", JObj([])).JObj?
       && Field(Field(config, "config", JObj([])), "sample_questions", JArr([])) == JArr(items)
  }

  /** With a well-formed configuration, `get_sample_questions` returns one
      entry per qualifying item, in item order. */
  lemma GetSampleQuestionsConfigured(details: Json, parse: Parser, items: seq<Json>)
    requires ConfiguresSamples(details, parse, items)
    ensures GetSampleQuestions(Success(details), parse) == SampleQuestions(items)
  {
  }

  // ---------------------------------------------------------------- space info

  /** `(space_title, space_description)`; `JNull` is Python's `None`. */
  datatype SpaceInfo = SpaceInfo(title: Json, description: Json)

  /** The title of `get_space_info`: `title` when truthy, else
      `display_name or name`. */
  function SpaceTitle(details: Json): (r: Json)
    ensures Truthy(Field(details, "title", JNull)) ==> r == Field(details, "title", JNull)
    ensures !Truthy(Field(details, "title", JNull)) && Truthy(Field(details, "display_name", JNull)) ==> r == Field(details, "display_name", JNull)
    ensures !Truthy(Field(details, "title", JNull)) && !Truthy(Field(details, "display_name", JNull)) ==> r == Field(details, "name", JNull)
  {
    var title := Field(details, "title", JNull);
    if Truthy(title) then title else Or(Field(details, "display_name", JNull), Field(details, "name", JNull))
  }

  /** `get_space_info()`, given what the space-details call returned or
      raised. A falsy top-level description falls back to
      `config.description` of the decoded `serialized_space`; a decoding
      error keeps the falsy value, while any other exception (a
      non-string `serialized_space`, a config that is not a dict) makes the
      whole result `(None, None)`. */
  function GetSpaceInfo(details: Result<Json, Fault>, parse: Parser): (r: SpaceInfo)
    ensures details.Failure? ==> r == SpaceInfo(JNull, JNull)
    ensures details.Success? && !details.value.JObj? ==> r == SpaceInfo(JNull, JNull)
    ensures details.Success? && details.value.JObj? && Truthy(Field(details.value, "description", JNull)) ==>
              r == SpaceInfo(SpaceTitle(details.value), Field(details.value, "description", JNull))
    ensures details.Success? && details.value.JObj? && !Truthy(Field(details.value, "serialized_space", JNull)) ==>
              r == SpaceInfo(SpaceTitle(details.value), Field(details.value, "description", JNull))
    ensures details.Success? && details.value.JObj? && !Truthy(Field(details.value, "description", JNull))
            && Truthy(Field(details.value, "serialized_space", JNull)) ==>
              var serialized := Field(details.value, "serialized_space", JNull);
              if !serialized.JStr? then r == SpaceInfo(JNull, JNull)
              else if parse(serialized.s).None? then r == SpaceInfo(SpaceTitle(details.value), Field(details.value, "description", JNull))
              else if parse(serialized.s).value.JObj? && Field(parse(serialized.s).value, "config", JObj([])).JObj? then
                r == SpaceInfo(SpaceTitle(details.value), Field(Field(parse(serialized.s).value, "config", JObj([])), "description", JNull))
              else r == SpaceInfo(JNull, JNull)
  {
    match details
    case Failure(_) => SpaceInfo(JNull, JNull)
    case Success(d) =>
      if !d.JObj? then SpaceInfo(JNull, JNull)
      else
        var title := SpaceTitle(d);
        var description := Field(d, "description", JNull);
        var serialized := Field(d, "serialized_space", JNull);
        if Truthy(description) || !Truthy(serialized) then SpaceInfo(title, description)
        else if !serialized.JStr? then SpaceInfo(JNull, JNull)
        else
          match parse(serialized.s)
          case None => SpaceInfo(title, description)
          case Some(config) =>
            if !config.JObj? then SpaceInfo(JNull, JNull)
            else
              var inner := Field(config, "config", JObj([]));
              if !inner.JObj? then SpaceInfo(JNull, JNull)
              else SpaceInfo(title, Field(inner, "description", JNull))
  }
}

=== FILE: values.dfy ===
/** JSON values as the Python client holds them after `response.json()`, and
    the few Python operations the client applies to them: truthiness,
    `dict.get`, `in`, subscription, `len` and iteration. Where Python would
    raise on an unexpected shape, the operation returns the exception as a
    `Fault`, so that the model keeps the client's error paths. */
module JsonValues {
  import opened Wrappers
  import opened Decimal

  /** A decoded JSON document. Python's `None` and JSON `null` are one value,
      `JNull`; a dict keeps its keys in document order. */
  datatype Json =
    | JNull
    | JBool(b: bool)
    | JInt(i: int)
    | JFloat(f: real)
    | JStr(s: string)
    | JArr(items: seq<Json>)
    | JObj(fields: seq<(string, Json)>)

  /** The exceptions that can reach the client's `except Exception` handlers. */
  datatype Fault =
    | Remote(text: string)    // raised by the HTTP layer once its retries give up; `text` is str(e)
    | Timeout(seconds: nat)   // the completion poller's TimeoutError
    | Py(error: PyError)      // raised by Python itself on an unexpected JSON shape

  /** The built-in exceptions a shape mismatch raises, with the type name
      Python puts in the message. */
  datatype PyError =
    | NoAttribute(typeName: string, attr: string)   // AttributeError from `x.get` / `x.keys`
    | NoLen(typeName: string)                       // TypeError from `len(x)`
    | NotIterable(typeName: string)                 // TypeError from `for _ in x`
    | NotContainer(typeName: string)                // TypeError from `k in x`
    | NotReversible(typeName: string)               // TypeError from `reversed(x)`
    | NotSubscriptable(typeName: string)            // TypeError from `x[k]`
    | StrIndex(typeName: string)                    // TypeError from a list or str indexed by a str
    | IndexOut(kind: string)                        // IndexError from `x[0]` on an empty list or str
    | KeyMissing(repr: string)                      // KeyError

  /** Python's truth value of a JSON value (`if v:`). */
  predicate Truthy(v: Json) {
    match v
    case JNull => false
    case JBool(b) => b
    case JInt(i) => i != 0
    case JFloat(f) => f != 0.0
    case JStr(s) => |s| > 0
    case JArr(items) => |items| > 0
    case JObj(fields) => |fields| > 0
  }

  /** Python's `a or b`: the first operand when it is truthy, else the second. */
  function Or(a: Json, b: Json): Json {
    if Truthy(a) then a else b
  }

  /** `type(v).__name__`. */
  function TypeName(v: Json): string {
    match v
    case JNull => "NoneType"
    case JBool(_) => "bool"
    case JInt(_) => "int"
    case JFloat(_) => "float"
    case JStr(_) => "str"
    case JArr(_) => "list"
    case JObj(_) => "dict"
  }

  /** The value stored under `key` in a dict's entries. */
  function Find(fields: seq<(string, Json)>, key: string): (r: Option<Json>)
    ensures r.Some? <==> exists i :: 0 <= i < |fields| && fields[i].0 == key
  {
    if |fields| == 0 then None
    else if fields[0].0 == key then Some(fields[0].1)
    else Find(fields[1..], key)
  }

  /** `key in v` for a dict `v`. */
  predicate HasKey(v: Json, key: string) {
    v.JObj? && Find(v.fields, key).Some?
  }

  /** `v.get(key, default)` for a dict `v` (and `default` for anything else,
      which the callers rule out before using it). */
  function Field(v: Json, key: string, default: Json): Json {
    if v.JObj? then Find(v.fields, key).GetOr(default) else default
  }

  /** A value `len` and iteration accept. */
  predicate IsSized(v: Json) {
    v.JArr? || v.JStr? || v.JObj?
  }

  /** What `for x in v` yields: a list's items, a string's characters, a dict's keys. */
  function Elements(v: Json): (r: Option<seq<Json>>)
    ensures r.Some? <==> IsSized(v)
    ensures r.Some? ==> (|r.value| > 0 <==> Truthy(v))
    ensures v.JArr? ==> r == Some(v.items)
  {
    match v
    case JArr(items) => Some(items)
    case JStr(s) => Some(seq(|s|, i requires 0 <= i < |s| => JStr([s[i]])))
    case JObj(fields) => Some(seq(|fields|, i requires 0 <= i < |fields| => JStr(fields[i].0)))
    case _ => None
  }

  /** `v.get(key, default)`: an AttributeError unless `v` is a dict. */
  function DictGet(v: Json, key: string, default: Json): (r: Result<Json, Fault>)
    ensures r.Success? <==> v.JObj?
    ensures r.Success? ==> r.value == Field(v, key, default)
    ensures r.Failure? ==> r.error == Py(NoAttribute(TypeName(v), "get"))
  {
    if v.JObj? then Success(Field(v, key, default))
    else Failure(Py(NoAttribute(TypeName(v), "get")))
  }

  /** Any dict method call `v.attr(...)`: passes `v` through when it is a dict. */
  function AsDict(v: Json, attr: string): (r: Result<Json, Fault>)
    ensures r.Success? <==> v.JObj?
    ensures r.Success? ==> r.value == v
  {
    if v.JObj? then Success(v) else Failure(Py(NoAttribute(TypeName(v), attr)))
  }

  /** Python's substring test `needle in hay` on two strings. */
  predicate IsSubstring(needle: string, hay: string)
    decreases |hay|
  {
    needle <= hay || (|hay| > 0 && IsSubstring(needle, hay[1..]))
  }

  /** `key in v` for a string `key`: dict membership, list membership,
      substring, or a TypeError for anything else. */
  function In(key: string, v: Json): (r: Result<bool, Fault>)
    ensures r.Success? <==> IsSized(v)
    ensures v.JObj? ==> r == Success(HasKey(v, key))
  {
    match v
    case JObj(fields) => Success(Find(fields, key).Some?)
    case JArr(items) => Success(JStr(key) in items)
    case JStr(s) => Success(IsSubstring(key, s))
    case _ => Failure(Py(NotContainer(TypeName(v))))
  }

  /** `v[key]` for a string `key`. */
  function Index(v: Json, key: string): (r: Result<Json, Fault>)
    ensures r.Success? <==> HasKey(v, key)
    ensures r.Success? ==> r.value == Field(v, key, JNull)
  {
    match v
    case JObj(fields) =>
      (match Find(fields, key)
       case Some(x) => Success(x)
       case None => Failure(Py(KeyMissing("'" + key + "'"))))
    case JArr(_) => Failure(Py(StrIndex("list")))
    case JStr(_) => Failure(Py(StrIndex("str")))
    case _ => Failure(Py(NotSubscriptable(TypeName(v))))
  }

  /** `v[0]`. A JSON dict never has the integer key 0. */
  function IndexZero(v: Json): (r: Result<Json, Fault>)
    ensures v.JArr? && |v.items| > 0 ==> r == Success(v.items[0])
    ensures r.Success? ==> (v.JArr? || v.JStr?) && Truthy(v)
  {
    match v
    case JArr(items) => if |items| > 0 then Success(items[0]) else Failure(Py(IndexOut("list")))
    case JStr(s) => if |s| > 0 then Success(JStr([s[0]])) else Failure(Py(IndexOut("string")))
    case JObj(_) => Failure(Py(KeyMissing("0")))
    case _ => Failure(Py(NotSubscriptable(TypeName(v))))
  }

  /** `len(v)`. */
  function Len(v: Json): (r: Result<nat, Fault>)
    ensures r.Success? <==> IsSized(v)
    ensures r.Success? ==> (r.value > 0 <==> Truthy(v))
    ensures v.JArr? ==> r == Success(|v.items|)
  {
    match Elements(v)
    case Some(xs) => Success(|xs|)
    case None => Failure(Py(NoLen(TypeName(v))))
  }

  /** `len(v)` followed by `for x in v`: the elements, or the TypeError `len` raises. */
  function Sized(v: Json): (r: Result<seq<Json>, Fault>)
    ensures r.Success? <==> IsSized(v)
    ensures r.Success? ==> Elements(v) == Some(r.value)
  {
    match Elements(v)
    case Some(xs) => Success(xs)
    case None => Failure(Py(NoLen(TypeName(v))))
  }

  /** `for x in v`: the elements, or the TypeError iteration raises. */
  function Iterate(v: Json): (r: Result<seq<Json>, Fault>)
    ensures r.Success? <==> IsSized(v)
    ensures r.Success? ==> Elements(v) == Some(r.value)
  {
    match Elements(v)
    case Some(xs) => Success(xs)
    case None => Failure(Py(NotIterable(TypeName(v))))
  }

  /** `str(e)` for a shape error, in CPython 3.11 wording. */
  function PyErrorText(e: PyError): string {
    match e
    case NoAttribute(t, a) => "'" + t + "' object has no attribute '" + a + "'"
    case NoLen(t) => "object of type '" + t + "' has no len()"
    case NotIterable(t) => "'" + t + "' object is not iterable"
    case NotContainer(t) => "argument of type '" + t + "' is not iterable"
    case NotReversible(t) => "'" + t + "' object is not reversible"
    case NotSubscriptable(t) => "'" + t + "' object is not subscriptable"
    case StrIndex(t) =>
      if t == "list" then "list indices must be integers or slices, not str"
      else "string indices must be integers, not 'str'"
    case IndexOut(k) => k + " index out of range"
    case KeyMissing(r) => r
  }

  /** `str(e)` for any fault. The poller's own message is fixed by `wait_for_message_completion`. */
  function FaultText(f: Fault): string {
    match f
    case Remote(text) => text
    case Timeout(seconds) => "Message processing timed out after " + NatToString(seconds) + " seconds"
    case Py(e) => PyErrorText(e)
  }
}

=== FILE: wrappers.dfy ===
/** Failure-compatible wrappers shared by the whole model. */
module Wrappers {

  /** Python's optional value: `None` or something. */
  datatype Option<+T> = None | Some(value: T) {

    /** The carried value, or `default` when there is none. */
    function GetOr(default: T): T {
      match this
      case Some(v) => v
      case None => default
    }
  }

  /** A computation that either returns a value or raises an error. */
  datatype Result<+T, +E> = Success(value: T) | Failure(error: E) {

    predicate IsFailure() {
      Failure?
    }

    function PropagateFailure<U>(): Result<U, E>
      requires Failure?
    {
      Failure(error)
    }

    function Extract(): T
      requires Success?
    {
      value
    }
  }
}
